=== FILE: README.md ===
# Notification backend: request handling as a state machine

This project models the request handlers of a small notification-tracking
backend. Users register and log in. Authenticated users file "occurrence"
reports about a vehicle plate, then list the reports they sent and the ones
"received" (every report someone else filed).

The model treats the service as a state machine over two in-memory tables.
- The database is an immutable `Store.State`: the `users` and `notifications` tables as sequences of rows in storage order, plus the two AUTOINCREMENT counters.
- Each HTTP route is a pure function from the state and an already-decoded request to a `Step`, which holds the response and the state afterwards.
- A body field the client left out is `None`. A field is "present" when it is JavaScript-truthy, which for a string means defined and non-empty (`Api.Present`).
- JWT signing and verification are an opaque `Auth.Jwt` pair of functions. The backend's own choices are modelled: the payload `generateToken` signs (id and name) and the `verifyToken` gate.

Modules:
- `Wrappers`: `Option` and `Result`.
- `Store`: rows, tables, lookups, the UPDATE and the two listing queries, and the `Valid` invariant. `Valid` covers increasing AUTOINCREMENT ids, unique emails and the default `pending` status.
- `Api`: the body, request and response types and their HTTP status codes.
- `Auth`: claims, the opaque signer and verifier, and the gate.
- `Server`: the seven routes of server.js, the dispatcher `Handle`, and their properties.
- `Legacy`: index.js, the earlier subset with four routes. There an insert may fail and answer 500; whether it fails is an explicit `storageFails` input.
- `Scenarios`: end-to-end request sequences.

Facts about the code that shape the model:
- Passwords are stored and compared as plain strings (server.js:77, 90). There is no hash.
- A duplicate email on register is a 400 "user exists" (server.js:72-74), with no separate conflict status.
- server.js's SQLite driver enforces the FOREIGN KEY on `notifications.user_id` (server.js:38). A token whose id has no `users` row therefore makes the notification INSERT throw, and Express answers 500 with nothing written; the model's outcome is `ConstraintViolation`. index.js's driver leaves foreign keys off, so index.js inserts such an orphan row and answers 201.
- PUT /api/users/:id validates no fields. A missing field reaches the UPDATE as NULL (the SQLite driver binds an undefined argument as NULL), and the NOT NULL constraint rejects it. An empty string is not NULL and is stored. An email held by another row breaks UNIQUE. Both constraint errors are modelled as `ConstraintViolation` (500) with nothing written. When no row has the id, the UPDATE touches nothing and the route still answers 200.

## Model

| member | source | states |
|---|---|---|
| Store.InitialValid | server.js:21-40 | A freshly created database (both tables empty, counters at 1) satisfies the schema invariant |
| Store.FindByEmail | server.js:71-72 | The email lookup finds a row exactly when some user holds that email, and the row it returns holds it |
| Store.FindById | server.js:106-107 | The id lookup finds a row exactly when some user has that id, and the row it returns has it |
| Store.FindByEmailExact | server.js:25 | Because emails are unique, looking up a stored user's email returns that very user |
| Store.FindByIdExact | server.js:23 | Because ids are AUTOINCREMENT primary keys, looking up a stored user's id returns that very user |
| Store.Overwrite | server.js:122-123 | The UPDATE keeps the table's length, gives the row with the target id the new name, email and password, and leaves every other row as it was |
| Store.Sent | server.js:142 | The sent query holds exactly the rows whose owner is the given user |
| Store.Received | server.js:148 | The received query holds exactly the rows whose owner is not the given user |
| Store.SentReceivedPartition | server.js:141-149 | Sent and received together hold every row exactly as often as the table does, and no row is in both |
| Store.AddUser | server.js:76-77 | The INSERT appends one row carrying the next AUTOINCREMENT id and the given name, email and password. It keeps every earlier row, advances only the user counter and leaves the notifications table alone |
| Store.AddNotification | server.js:135-136 | The INSERT appends one row carrying the next id, the given owner, plate and occurrence, and the schema's default status `pending` (server.js:36). It keeps every earlier row, advances only the notification counter and leaves the users table alone |
| Store.AddUserValid | server.js:76-77 | Inserting a user whose email is free keeps ids increasing and emails unique, and the appended row's id exceeds every earlier row's id |
| Store.AddUserKeepsOwners | server.js:38 | Inserting a user keeps every notification's owner a stored user |
| Store.AddNotificationKeepsOwners | server.js:135-136 | Inserting a notification owned by a stored user keeps every owner stored, as the FOREIGN KEY demands |
| Store.OverwriteKeepsOwners | server.js:122-123 | The UPDATE keeps every row's id, so every notification's owner stays a stored user |
| Store.AddNotificationValid | server.js:135-136 | Inserting a notification keeps notification ids increasing and every status `pending` |
| Store.OverwriteValid | server.js:122-123 | Overwriting one user keeps the table valid when no other row holds the new email |
| Api.Present | server.js:67 | A body field passes the truthiness test of register, login (server.js:85) and notification creation (server.js:131) exactly when it is neither absent nor the empty string |
| Auth.GenerateToken | server.js:43-44 | A sound verifier decodes the issued token to exactly the user's id and name, and the token is non-empty |
| Auth.TokenIgnoresEmailAndPassword | server.js:43-44 | The claims `generateToken` chooses are the id and name only. Email and password never reach the token, so one signer gives two users who share id and name the same token |
| Auth.Gate | server.js:48-61 | A missing or empty header is refused as "no token", a header the verifier rejects as "bad token", and otherwise the verifier's claims reach the handler |
| Auth.IssuedTokenPasses | server.js:43-44 | A token issued for a user passes a sound verifier's gate as exactly that user's id and name |
| Server.Register | server.js:64-79 | A missing name, email or password gives 400 with nothing changed. So does an email already in use. Otherwise exactly one user is appended with the next id, and 201 carries that id |
| Server.Login | server.js:82-96 | Login never changes the database. Missing fields give 400 "missing fields". Present fields that do not log in give the one 400 "invalid credentials", whether the email is unknown or the password wrong. A token is returned only for a stored user whose email and password both match, and it is that user's token |
| Server.ShowUser | server.js:99-111 | A path id other than the caller's gives 403. A missing row gives 404. Otherwise the answer is the stored row's id, name and email, with no password |
| Server.UpdateUser | server.js:114-125 | A path id other than the caller's gives 403 with nothing changed, and the caller's own id never gives 403. The caller's own id with no row is a 200 that changes nothing. A NULL field or an email held by another row is a constraint error that writes nothing. Any change overwrites only the row with that id |
| Server.CreateNotification | server.js:128-138 | A missing plate or occurrence gives 400 with nothing changed. A caller whose id has no users row breaks the FOREIGN KEY, which is a 500 with nothing changed. Otherwise exactly one notification is appended, owned by the caller, `pending`, with the next id, and 201 carries that id |
| Server.ListSent | server.js:141-144 | The sent listing holds exactly the caller's notifications and changes nothing |
| Server.ListReceived | server.js:147-150 | The received listing holds exactly the notifications of everyone else and changes nothing |
| Server.Handle | server.js:64-150 | On every protected route a rejected token gives 403 before the handler runs. Any error response leaves the database unchanged |
| Server.HandlePreservesValid | server.js:21-40 | Every route keeps unique emails, increasing AUTOINCREMENT ids and the default status |
| Server.RegisterFreshId | server.js:23-25 | A successful register's id exceeds every existing id, and the database stays valid |
| Server.HandleKeepsOwnersStored | server.js:38 | Every server.js route keeps every notification's owner a stored user |
| Server.LoginExact | server.js:85-95 | Login succeeds exactly when both fields are present and some stored user matches both email and password. The token then carries that user's id and name |
| Server.ShowUserExact | server.js:102-110 | The caller reading their own id gets that row's id, name and email |
| Server.UpdateUserOnlyOwnRow | server.js:118-124 | A successful PUT rewrites the caller's row and keeps every other user, every notification and validity |
| Server.GateBeforeBody | server.js:128-133 | Without a usable token a protected route answers 403 whatever the body holds, so a notification without a token is never a 400 |
| Server.OwnerFromToken | server.js:129-136 | A `user_id` in the body has no effect, and a new notification's owner is the id in the token |
| Server.ListingsPartition | server.js:141-149 | For one caller, the sent and received listings split the whole table with no overlap |
| Legacy.Register | index.js:75-94 | Missing fields or an existing email give 400 with no insert. A failed insert gives 500 and adds nothing. Otherwise one user is appended and 201 carries the new id |
| Legacy.CreateNotification | index.js:131-144 | A missing plate or occurrence gives 400. A failed insert gives 500 with no row. Otherwise one row owned by the caller is appended and 201 carries its id |
| Legacy.Handle | index.js:59-144 | A rejected token gives 403 before the handler runs. Error responses and failed inserts leave the database unchanged |
| Legacy.AgreesWithServer | index.js:97-128 | When no insert fails, every index.js route answers exactly as the same server.js route, except a notification whose owner has no users row |
| Legacy.OrphanInsertDiffers | index.js:138-142 | For a notification whose owner has no users row, index.js answers 201 and appends the row, where server.js answers 500 and writes nothing |
| Legacy.StorageFailureIsInternalError | index.js:87-91 | A failed insert changes only answers that would be 201: index.js then answers 500 and writes nothing. Apart from an orphan notification, the model of server.js, whose inserts always succeed, answers 201 there |
| Legacy.HandlePreservesValid | index.js:25-51 | Every index.js route keeps the schema invariant, failed inserts included |
| Scenarios.RegisterLoginShow | server.js:64-111 | Register, then login with the same credentials, then GET with the returned token yields 201, 200 with a token, and the registered id, name and email |
| Scenarios.AnaScenario | server.js:64-111 | On an empty database, Ana registers as id 1, logs in with 200 and reads back her id, name and email |
| Scenarios.NotificationVisibility | server.js:128-150 | A notification filed by a stored user A is in A's sent listing and in every other user's received listing, but not in A's received listing |
| Scenarios.NoTokenNoNotification | server.js:48-52 | POST /api/notifications without an Authorization header is 403 whatever the body |

## Left out

- Express plumbing is not modelled: routing, body-parser, CORS, `app.listen`, the port and logging. A request arrives already decoded, and body fields are strings or absent. JSON values of other types are not modelled.
- JWT internals are not modelled: HMAC signing, the secret and the one-hour expiry. They are the opaque `Jwt.sign`/`Jwt.verify` parameters. The end-to-end lemmas assume `Sound(jwt)`: the verifier accepts what the signer issues and decodes it faithfully.
- The `iat` and `exp` claims the JWT library adds to every token are not part of `Auth.Claims`, and `Jwt.sign` is the deterministic signer of one instant. Tokens issued at different seconds, such as two logins by the same user, differ in the program but not in the model.
- The SQLite engine is not modelled: prepared statements, `db.serialize`, callback asynchrony and the race between the email check and the insert. Each request is one atomic step.
- `notifications.user_id` is nullable in the schema but always set from the token id. The model's owner is therefore an integer, and the NULL case of the `!=` query cannot arise.
- `created_at` is not modelled, because it is a wall-clock default.
- The path id arrives as an already-parsed integer. JavaScript's loose `!=` between a string and a number is not modelled.
- The model of server.js treats every INSERT as succeeding apart from the FOREIGN KEY failure. A thrown INSERT error from a locked database, a full disk or the register race (Express's default 500) is not modelled. The body of Express's default error handler is not modelled beyond the `ConstraintViolation` outcome.
- Lookups are modelled as never failing. index.js ignores a lookup's error (index.js:82, 104, 122), so there a failed lookup would act as "no row". A failed `.get` in server.js would throw and give Express's 500. Neither is modelled.
- Store.Sent: states membership and multiplicity of the listing, not that it keeps storage order, because neither query has an ORDER BY.
- Store.Received: states membership and multiplicity of the listing, not that it keeps storage order, for the same reason.

=== FILE: api.dfy ===
/**
 * The HTTP surface after Express and body-parser have done their work: a
 * request is its Authorization header plus an already-decoded JSON body, and
 * a response is one of the outcomes the handlers send.
 */
module Api {
  import opened Wrappers
  import opened Store

  /**
   * The JSON body fields any route reads. A field the client left out is
   * None. `userId` stands for a client-supplied `user_id`, which no handler
   * reads.
   */
  datatype Body = Body(
    name: Option<string>,
    email: Option<string>,
    password: Option<string>,
    plate: Option<string>,
    occurrence: Option<string>,
    userId: Option<int>)

  /** A request as a handler sees it: the `Authorization` header and the body. */
  datatype Request = Request(authorization: Option<string>, body: Body)

  /**
   * JavaScript truthiness of a string field: `undefined` and `""` are the
   * only falsy values a string field can take.
   */
  predicate Present(f: Option<string>)
    ensures Present(f) <==> f != None && f != Some("")
  {
    f.Some? && |f.value| > 0
  }

  /** Why a 400 was sent. */
  datatype BadReason =
    | MissingFields       // a required body field is missing or empty
    | UserExists          // register with an email already in `users`
    | InvalidCredentials  // login with an unknown email or a wrong password

  /** Why a 403 was sent. */
  datatype DenyReason =
    | NoToken   // no Authorization header, or an empty one
    | BadToken  // the verifier rejected the header
    | NotOwner  // the path id is not the token's id

  datatype Response =
    | Registered(userId: int)
    | LoggedIn(token: string)
    | Profile(id: int, name: string, email: string)  // never the password
    | Updated
    | NotificationCreated(notificationId: int)
    | Listing(rows: seq<Notification>)
    | BadRequest(why: BadReason)
    | Forbidden(deny: DenyReason)
    | NotFound
    | InternalError        // an insert reported an error (index.js)
    | ConstraintViolation  // a statement broke UNIQUE, NOT NULL or FOREIGN KEY (server.js)

  /** The HTTP status each response is sent with. */
  function StatusCode(r: Response): (code: int) {
    match r
    case Registered(_) => 201
    case NotificationCreated(_) => 201
    case LoggedIn(_) => 200
    case Profile(_, _, _) => 200
    case Updated => 200
    case Listing(_) => 200
    case BadRequest(_) => 400
    case Forbidden(_) => 403
    case NotFound => 404
    case InternalError => 500
    case ConstraintViolation => 500
  }

  predicate IsError(r: Response) {
    StatusCode(r) >= 400
  }

  /** One handled request: what was sent back and the database afterwards. */
  datatype Step = Step(response: Response, next: State)
}

=== FILE: auth.dfy ===
/**
 * Session tokens. Signing and verification (HMAC, the one-hour expiry) are
 * library code and stay opaque: a `Jwt` is any pair of signer and verifier.
 * What the backend itself decides is the payload it signs and the gate it
 * puts in front of protected routes.
 */
module Auth {
  import opened Wrappers
  import opened Store
  import opened Api

  /**
   * The claims `generateToken` chooses: the user's id and name. Email and
   * password never reach the token. The `iat` and `exp` claims the signing
   * library adds itself are not part of this type.
   */
  datatype Claims = Claims(id: int, name: string)

  /**
   * The signing library with its secret and clock folded in: `sign` is the
   * deterministic signer of one instant, so it adds the same `iat` and `exp`
   * to every token.
   */
  datatype Jwt = Jwt(sign: Claims -> string, verify: string -> Option<Claims>)

  /** A verifier that accepts every token its signer issues (while unexpired) and decodes it faithfully. */
  ghost predicate Sound(jwt: Jwt) {
    forall c: Claims :: |jwt.sign(c)| > 0 && jwt.verify(jwt.sign(c)) == Some(c)
  }

  /**
   * `generateToken(user)`: sign the user's id and name. A sound verifier
   * gives back exactly those two fields.
   */
  function GenerateToken(jwt: Jwt, u: User): (t: string)
    ensures Sound(jwt) ==> |t| > 0 && jwt.verify(t) == Some(Claims(u.id, u.name))
  {
    jwt.sign(Claims(u.id, u.name))
  }

  /**
   * The claims `generateToken` chooses are the id and name only. Email and
   * password never reach the token, so one signer gives two users who share
   * id and name the same token.
   */
  lemma TokenIgnoresEmailAndPassword(jwt: Jwt, u: User, v: User)
    requires u.id == v.id && u.name == v.name
    ensures GenerateToken(jwt, u) == GenerateToken(jwt, v)
  {
  }

  /**
   * `verifyToken`: a missing or empty header is refused first, then a header
   * the verifier rejects; otherwise the decoded claims go to the handler.
   */
  function Gate(jwt: Jwt, header: Option<string>): (r: Result<Claims, DenyReason>)
    ensures r.Ok? <==> Present(header) && jwt.verify(header.value).Some?
    ensures r.Ok? ==> jwt.verify(header.value) == Some(r.value)
    ensures r.Err? ==> (r.error == NoToken <==> !Present(header))
    ensures r.Err? ==> r.error != NotOwner
  {
    if !Present(header) then Err(NoToken)
    else
      match jwt.verify(header.value)
      case None => Err(BadToken)
      case Some(c) => Ok(c)
  }

  /** A token from `generateToken` passes the gate of a sound verifier as that user's id and name. */
  lemma IssuedTokenPasses(jwt: Jwt, u: User)
    requires Sound(jwt)
    ensures Gate(jwt, Some(GenerateToken(jwt, u))) == Ok(Claims(u.id, u.name))
  {
    var c := Claims(u.id, u.name);
    assert |jwt.sign(c)| > 0 && jwt.verify(jwt.sign(c)) == Some(c);
  }
}

=== FILE: legacy.dfy ===
/**
 * index.js, the earlier revision of the same service: register, login,
 * GET /api/users/:id and POST /api/notifications only, and an insert that
 * reports an error answers 500. Whether the insert fails is an input here
 * (`storageFails`), since it depends on the database engine.
 */
module Legacy {
  import opened Wrappers
  import opened Store
  import opened Api
  import opened Auth
  import Server

  /** The routes index.js registers. */
  datatype Route =
    | PostRegister
    | PostLogin
    | GetUser(id: int)
    | PostNotification

  /** The same route in server.js. */
  function Lift(r: Route): (lifted: Server.Route) {
    match r
    case PostRegister => Server.PostRegister
    case PostLogin => Server.PostLogin
    case GetUser(id) => Server.GetUser(id)
    case PostNotification => Server.PostNotification
  }

  /**
   * POST /api/auth/register in index.js: the same checks as server.js, then
   * an insert that may fail, in which case nothing is added and 500 is sent.
   */
  function Register(s: State, body: Body, storageFails: bool): (out: Step)
    ensures !Server.RegisterFieldsPresent(body) ==> out == Step(BadRequest(MissingFields), s)
    ensures Server.RegisterFieldsPresent(body) && EmailTaken(s.users, body.email.value) ==>
      out == Step(BadRequest(UserExists), s)
    ensures Server.RegisterFieldsPresent(body) && !EmailTaken(s.users, body.email.value) && storageFails ==>
      out == Step(InternalError, s)
    ensures out.response.Registered? <==>
      Server.RegisterFieldsPresent(body) && !EmailTaken(s.users, body.email.value) && !storageFails
    ensures out.response.Registered? ==>
      && out.response.userId == s.nextUserId
      && out.next.users == s.users + [User(out.response.userId, body.name.value, body.email.value, body.password.value)]
      && out.next.notifications == s.notifications
      && out.next.nextUserId == s.nextUserId + 1
      && out.next.nextNotificationId == s.nextNotificationId
  {
    if !Server.RegisterFieldsPresent(body) then Step(BadRequest(MissingFields), s)
    else if FindByEmail(s.users, body.email.value).Some? then Step(BadRequest(UserExists), s)
    else if storageFails then Step(InternalError, s)
    else Step(Registered(s.nextUserId), AddUser(s, body.name.value, body.email.value, body.password.value))
  }

  /**
   * POST /api/notifications in index.js: the owner is the token's id; a
   * failed insert adds nothing and answers 500.
   */
  function CreateNotification(s: State, who: Claims, body: Body, storageFails: bool): (out: Step)
    ensures !Server.NotificationFieldsPresent(body) ==> out == Step(BadRequest(MissingFields), s)
    ensures Server.NotificationFieldsPresent(body) && storageFails ==> out == Step(InternalError, s)
    ensures Server.NotificationFieldsPresent(body) && !storageFails ==>
      && out.response == NotificationCreated(s.nextNotificationId)
      && out.next.users == s.users
      && out.next.notifications ==
         s.notifications + [Notification(out.response.notificationId, who.id, body.plate.value, body.occurrence.value, Pending)]
      && out.next.nextUserId == s.nextUserId
      && out.next.nextNotificationId == s.nextNotificationId + 1
  {
    if !Server.NotificationFieldsPresent(body) then Step(BadRequest(MissingFields), s)
    else if storageFails then Step(InternalError, s)
    else Step(NotificationCreated(s.nextNotificationId),
              AddNotification(s, who.id, body.plate.value, body.occurrence.value))
  }

  /**
   * The whole of index.js. Login and GET /api/users/:id are the same code as
   * in server.js and are shared; `verifyToken` is the same gate.
   */
  function Handle(jwt: Jwt, s: State, route: Route, req: Request, storageFails: bool): (out: Step)
    ensures !route.PostRegister? && !route.PostLogin? && Gate(jwt, req.authorization).Err? ==>
      out == Step(Forbidden(Gate(jwt, req.authorization).error), s)
    ensures IsError(out.response) ==> out.next == s
    ensures storageFails ==> out.next == s
  {
    match route
    case PostRegister => Register(s, req.body, storageFails)
    case PostLogin => Server.Login(jwt, s, req.body)
    case GetUser(id) =>
      (match Gate(jwt, req.authorization)
       case Err(why) => Step(Forbidden(why), s)
       case Ok(who) => Server.ShowUser(s, who, id))
    case PostNotification =>
      match Gate(jwt, req.authorization)
      case Err(why) => Step(Forbidden(why), s)
      case Ok(who) => CreateNotification(s, who, req.body, storageFails)
  }

  /**
   * A notification whose owner, the token's id, has no `users` row. index.js's
   * driver leaves foreign keys off and inserts it; server.js's refuses it.
   */
  predicate OrphanInsert(jwt: Jwt, s: State, route: Route, req: Request) {
    && route.PostNotification?
    && Gate(jwt, req.authorization).Ok?
    && Server.NotificationFieldsPresent(req.body)
    && !IdExists(s.users, Gate(jwt, req.authorization).value.id)
  }

  /**
   * index.js is a subset of server.js: when no insert fails, every route it
   * has answers exactly as the same route of server.js does, except an
   * orphan notification, which only server.js refuses.
   */
  lemma AgreesWithServer(jwt: Jwt, s: State, route: Route, req: Request)
    ensures !OrphanInsert(jwt, s, route, req) ==>
      Handle(jwt, s, route, req, false) == Server.Handle(jwt, s, Lift(route), req)
  {
  }

  /**
   * The orphan notification: index.js answers 201 and appends the row,
   * server.js answers 500 and writes nothing.
   */
  lemma OrphanInsertDiffers(jwt: Jwt, s: State, route: Route, req: Request)
    requires OrphanInsert(jwt, s, route, req)
    ensures Handle(jwt, s, route, req, false).response == NotificationCreated(s.nextNotificationId)
    ensures |Handle(jwt, s, route, req, false).next.notifications| == |s.notifications| + 1
    ensures Server.Handle(jwt, s, Lift(route), req) == Step(ConstraintViolation, s)
  {
  }

  /**
   * Whether the insert fails matters only where index.js would answer 201:
   * the failure turns that into 500 with nothing added. Apart from an orphan
   * notification, server.js, whose inserts are modelled as succeeding,
   * answers 201 there too.
   */
  lemma StorageFailureIsInternalError(jwt: Jwt, s: State, route: Route, req: Request)
    requires Handle(jwt, s, route, req, true) != Handle(jwt, s, route, req, false)
    ensures Handle(jwt, s, route, req, true) == Step(InternalError, s)
    ensures StatusCode(Handle(jwt, s, route, req, false).response) == 201
    ensures !OrphanInsert(jwt, s, route, req) ==>
      StatusCode(Server.Handle(jwt, s, Lift(route), req).response) == 201
  {
  }

  /** Every route of index.js keeps the database valid, failed inserts included. */
  lemma HandlePreservesValid(jwt: Jwt, s: State, route: Route, req: Request, storageFails: bool)
    requires Valid(s)
    ensures Valid(Handle(jwt, s, route, req, storageFails).next)
  {
    if !storageFails {
      if OrphanInsert(jwt, s, route, req) {
        var who := Gate(jwt, req.authorization).value;
        AddNotificationValid(s, who.id, req.body.plate.value, req.body.occurrence.value);
      } else {
        AgreesWithServer(jwt, s, route, req);
        Server.HandlePreservesValid(jwt, s, Lift(route), req);
      }
    }
  }
}

=== FILE: scenarios.dfy ===
/**
 * Request sequences across several handlers of server.js: what a client sees
 * when it registers, logs in, reads its profile and files notifications.
 */
module Scenarios {
  import opened Wrappers
  import opened Store
  import opened Api
  import opened Auth
  import opened Server

  /** A body with no fields at all. */
  const NoBody: Body := Body(None, None, None, None, None, None)

  /**
   * Register, then log in with the same credentials, then read the new
   * profile with the token login returned: 201, 200 with a token, and 200
   * with the id, name and email just registered.
   */
  lemma RegisterLoginShow(jwt: Jwt, s: State, body: Body)
    requires Sound(jwt)
    requires Valid(s)
    requires RegisterFieldsPresent(body)
    requires !EmailTaken(s.users, body.email.value)
    ensures var reg := Handle(jwt, s, PostRegister, Request(None, body));
            var login := Handle(jwt, reg.next, PostLogin, Request(None, body));
            && reg.response == Registered(s.nextUserId)
            && login.response.LoggedIn?
            && login.next == reg.next
            && Handle(jwt, login.next, GetUser(reg.response.userId), Request(Some(login.response.token), NoBody)).response
               == Profile(reg.response.userId, body.name.value, body.email.value)
  {
    var reg := Handle(jwt, s, PostRegister, Request(None, body));
    var s1 := reg.next;
    var i := |s.users|;
    var u := User(s.nextUserId, body.name.value, body.email.value, body.password.value);
    RegisterFreshId(s, body);
    assert s1.users[i] == u;
    LoginExact(jwt, s1, body);
    var login := Login(jwt, s1, body);
    assert login.response.token == GenerateToken(jwt, u);
    IssuedTokenPasses(jwt, u);
    ShowUserExact(s1, Claims(u.id, u.name), i);
  }

  /**
   * Ana registers with email ana@x.com and password p1 on an empty database,
   * gets id 1, logs in, and reads her profile back.
   */
  lemma AnaScenario(jwt: Jwt)
    requires Sound(jwt)
    ensures var body := Body(Some("Ana"), Some("ana@x.com"), Some("p1"), None, None, None);
            var reg := Handle(jwt, Initial, PostRegister, Request(None, body));
            var login := Handle(jwt, reg.next, PostLogin, Request(None, body));
            && reg.response == Registered(1)
            && StatusCode(login.response) == 200
            && Handle(jwt, login.next, GetUser(1), Request(Some(login.response.token), NoBody)).response
               == Profile(1, "Ana", "ana@x.com")
  {
    var body := Body(Some("Ana"), Some("ana@x.com"), Some("p1"), None, None, None);
    InitialValid();
    RegisterLoginShow(jwt, Initial, body);
  }

  /**
   * A notification filed by a stored user `a` shows up in `a`'s sent listing
   * and in the received listing of every other caller, and not in `a`'s
   * received listing.
   */
  lemma NotificationVisibility(jwt: Jwt, s: State, ha: string, body: Body, b: Claims)
    requires Gate(jwt, Some(ha)).Ok?
    requires IdExists(s.users, Gate(jwt, Some(ha)).value.id)
    requires NotificationFieldsPresent(body)
    requires b.id != Gate(jwt, Some(ha)).value.id
    ensures var a := Gate(jwt, Some(ha)).value;
            var created := Handle(jwt, s, PostNotification, Request(Some(ha), body));
            var n := Notification(s.nextNotificationId, a.id, body.plate.value, body.occurrence.value, Pending);
            && created.response == NotificationCreated(n.id)
            && n in ListSent(created.next, a).response.rows
            && n in ListReceived(created.next, b).response.rows
            && n !in ListReceived(created.next, a).response.rows
  {
    var a := Gate(jwt, Some(ha)).value;
    var created := Handle(jwt, s, PostNotification, Request(Some(ha), body));
    assert created == CreateNotification(s, a, body);
    var n := Notification(s.nextNotificationId, a.id, body.plate.value, body.occurrence.value, Pending);
    assert created.next.notifications[|s.notifications|] == n;
  }

  /** Without a token, filing a notification is refused with 403, even with an empty body. */
  lemma NoTokenNoNotification(jwt: Jwt, s: State, body: Body)
    ensures Handle(jwt, s, PostNotification, Request(None, body)) == Step(Forbidden(NoToken), s)
  {
  }
}

=== FILE: server.dfy ===
/**
 * The request handlers of server.js, each a pure step from the database and
 * a request to a response and the database afterwards.
 */
module Server {
  import opened Wrappers
  import opened Store
  import opened Api
  import opened Auth

  /** The routes server.js registers; the path id arrives already parsed. */
  datatype Route =
    | PostRegister          // POST /api/auth/register
    | PostLogin             // POST /api/auth/login
    | GetUser(id: int)      // GET  /api/users/:id
    | PutUser(id: int)      // PUT  /api/users/:id
    | PostNotification      // POST /api/notifications
    | GetSent               // GET  /api/notifications/sent
    | GetReceived           // GET  /api/notifications/received

  /** Routes mounted behind `verifyToken`. */
  predicate Protected(r: Route) {
    !r.PostRegister? && !r.PostLogin?
  }

  predicate RegisterFieldsPresent(b: Body) {
    Present(b.name) && Present(b.email) && Present(b.password)
  }

  predicate NotificationFieldsPresent(b: Body) {
    Present(b.plate) && Present(b.occurrence)
  }

  /** POST /api/auth/register. */
  function Register(s: State, body: Body): (out: Step)
    ensures !RegisterFieldsPresent(body) ==> out == Step(BadRequest(MissingFields), s)
    ensures RegisterFieldsPresent(body) && EmailTaken(s.users, body.email.value) ==>
      out == Step(BadRequest(UserExists), s)
    ensures out.response.Registered? <==> RegisterFieldsPresent(body) && !EmailTaken(s.users, body.email.value)
    ensures out.response.Registered? ==>
      && out.response.userId == s.nextUserId
      && out.next.users == s.users + [User(out.response.userId, body.name.value, body.email.value, body.password.value)]
      && out.next.notifications == s.notifications
      && out.next.nextUserId == s.nextUserId + 1
      && out.next.nextNotificationId == s.nextNotificationId
  {
    if !RegisterFieldsPresent(body) then Step(BadRequest(MissingFields), s)
    else if FindByEmail(s.users, body.email.value).Some? then Step(BadRequest(UserExists), s)
    else Step(Registered(s.nextUserId), AddUser(s, body.name.value, body.email.value, body.password.value))
  }

  /** POST /api/auth/login: never changes the database. */
  function Login(jwt: Jwt, s: State, body: Body): (out: Step)
    ensures out.next == s
    ensures !(Present(body.email) && Present(body.password)) ==> out.response == BadRequest(MissingFields)
    ensures out.response.LoggedIn? || out.response.BadRequest?
    ensures out.response.LoggedIn? ==>
      exists u :: u in s.users && u.email == body.email.value && u.password == body.password.value
                  && out.response.token == GenerateToken(jwt, u)
    ensures Present(body.email) && Present(body.password) && !out.response.LoggedIn? ==>
      out.response == BadRequest(InvalidCredentials)
  {
    if !(Present(body.email) && Present(body.password)) then Step(BadRequest(MissingFields), s)
    else
      match FindByEmail(s.users, body.email.value)
      case None => Step(BadRequest(InvalidCredentials), s)
      case Some(u) =>
        if u.password != body.password.value then Step(BadRequest(InvalidCredentials), s)
        else Step(LoggedIn(GenerateToken(jwt, u)), s)
  }

  /** GET /api/users/:id for the caller `who`: never changes the database. */
  function ShowUser(s: State, who: Claims, id: int): (out: Step)
    ensures out.next == s
    ensures id != who.id ==> out.response == Forbidden(NotOwner)
    ensures id == who.id && !IdExists(s.users, id) ==> out.response == NotFound
    ensures out.response.Profile? <==> id == who.id && IdExists(s.users, id)
    ensures out.response.Profile? ==>
      exists u :: u in s.users && u.id == id && out.response == Profile(u.id, u.name, u.email)
  {
    if id != who.id then Step(Forbidden(NotOwner), s)
    else
      match FindById(s.users, id)
      case None => Step(NotFound, s)
      case Some(u) => Step(Profile(u.id, u.name, u.email), s)
  }

  /**
   * PUT /api/users/:id for the caller `who`. The UPDATE touches only the row
   * with that id; when there is none it changes nothing and still answers 200.
   * A missing field is bound as NULL and an email held by another row breaks
   * UNIQUE, so both end in a constraint error with nothing written.
   */
  function UpdateUser(s: State, who: Claims, id: int, body: Body): (out: Step)
    ensures id != who.id ==> out == Step(Forbidden(NotOwner), s)
    ensures id == who.id ==> out.response != Forbidden(NotOwner)
    ensures id == who.id && !IdExists(s.users, id) ==> out == Step(Updated, s)
    ensures out.response in {Updated, Forbidden(NotOwner), ConstraintViolation}
    ensures out.response != Updated ==> out.next == s
    ensures out.response.Updated? ==> id == who.id
    ensures out.response == ConstraintViolation <==>
      && id == who.id && IdExists(s.users, id)
      && (body.name.None? || body.email.None? || body.password.None?
          || EmailHeldByOther(s.users, body.email.value, id))
    ensures out.next != s ==>
      && body.name.Some? && body.email.Some? && body.password.Some?
      && out.next == s.(users := Overwrite(s.users, id, body.name.value, body.email.value, body.password.value))
    ensures out.response.Updated? && IdExists(s.users, id) ==>
      && body.name.Some? && body.email.Some? && body.password.Some?
      && out.next == s.(users := Overwrite(s.users, id, body.name.value, body.email.value, body.password.value))
  {
    if id != who.id then Step(Forbidden(NotOwner), s)
    else if FindById(s.users, id).None? then Step(Updated, s)
    else if body.name.None? || body.email.None? || body.password.None? then Step(ConstraintViolation, s)
    else if EmailHeldByOther(s.users, body.email.value, id) then Step(ConstraintViolation, s)
    else Step(Updated, s.(users := Overwrite(s.users, id, body.name.value, body.email.value, body.password.value)))
  }

  /**
   * POST /api/notifications for the caller `who`: the owner is the token's id.
   * The driver enforces the FOREIGN KEY on `user_id`, so a token whose id has
   * no `users` row makes the INSERT throw and nothing is written.
   */
  function CreateNotification(s: State, who: Claims, body: Body): (out: Step)
    ensures !NotificationFieldsPresent(body) ==> out == Step(BadRequest(MissingFields), s)
    ensures NotificationFieldsPresent(body) && !IdExists(s.users, who.id) ==> out == Step(ConstraintViolation, s)
    ensures NotificationFieldsPresent(body) && IdExists(s.users, who.id) ==>
      && out.response == NotificationCreated(s.nextNotificationId)
      && out.next.users == s.users
      && out.next.notifications ==
         s.notifications + [Notification(out.response.notificationId, who.id, body.plate.value, body.occurrence.value, Pending)]
      && out.next.nextUserId == s.nextUserId
      && out.next.nextNotificationId == s.nextNotificationId + 1
  {
    if !NotificationFieldsPresent(body) then Step(BadRequest(MissingFields), s)
    else if FindById(s.users, who.id).None? then Step(ConstraintViolation, s)
    else Step(NotificationCreated(s.nextNotificationId),
              AddNotification(s, who.id, body.plate.value, body.occurrence.value))
  }

  /** GET /api/notifications/sent: the caller's own notifications. */
  function ListSent(s: State, who: Claims): (out: Step)
    ensures out.next == s && out.response.Listing?
    ensures forall n :: n in out.response.rows <==> n in s.notifications && n.userId == who.id
  {
    Step(Listing(Sent(s.notifications, who.id)), s)
  }

  /** GET /api/notifications/received: every notification the caller did not create. */
  function ListReceived(s: State, who: Claims): (out: Step)
    ensures out.next == s && out.response.Listing?
    ensures forall n :: n in out.response.rows <==> n in s.notifications && n.userId != who.id
  {
    Step(Listing(Received(s.notifications, who.id)), s)
  }

  /** The handler of a protected route, reached only once the gate admitted `who`. */
  function Serve(s: State, who: Claims, route: Route, body: Body): (out: Step)
    requires Protected(route)
  {
    match route
    case GetUser(id) => ShowUser(s, who, id)
    case PutUser(id) => UpdateUser(s, who, id, body)
    case PostNotification => CreateNotification(s, who, body)
    case GetSent => ListSent(s, who)
    case GetReceived => ListReceived(s, who)
  }

  /**
   * The whole server: register and login are open, every other route runs
   * `verifyToken` first and its handler only when the token is accepted.
   * Whatever the route, an error response leaves the database as it was.
   */
  function Handle(jwt: Jwt, s: State, route: Route, req: Request): (out: Step)
    ensures Protected(route) && Gate(jwt, req.authorization).Err? ==>
      out == Step(Forbidden(Gate(jwt, req.authorization).error), s)
    ensures IsError(out.response) ==> out.next == s
  {
    if route.PostRegister? then Register(s, req.body)
    else if route.PostLogin? then Login(jwt, s, req.body)
    else
      match Gate(jwt, req.authorization)
      case Err(why) => Step(Forbidden(why), s)
      case Ok(who) => Serve(s, who, route, req.body)
  }

  // ---------------------------------------------------------------------------
  // Properties of the handlers
  // ---------------------------------------------------------------------------

  /** Every route keeps the database valid: unique emails, AUTOINCREMENT ids, pending status. */
  lemma HandlePreservesValid(jwt: Jwt, s: State, route: Route, req: Request)
    requires Valid(s)
    ensures Valid(Handle(jwt, s, route, req).next)
  {
    var body := req.body;
    match route
    case PostRegister =>
      if RegisterFieldsPresent(body) && !EmailTaken(s.users, body.email.value) {
        AddUserValid(s, body.name.value, body.email.value, body.password.value);
      }
    case PostNotification =>
      if Gate(jwt, req.authorization).Ok? && NotificationFieldsPresent(body)
         && IdExists(s.users, Gate(jwt, req.authorization).value.id) {
        AddNotificationValid(s, Gate(jwt, req.authorization).value.id, body.plate.value, body.occurrence.value);
      }
    case PutUser(id) =>
      var out := Handle(jwt, s, route, req);
      if out.next != s {
        OverwriteValid(s, id, body.name.value, body.email.value, body.password.value);
      }
    case _ =>
  }

  /**
   * server.js keeps every notification's owner a stored user: the FOREIGN KEY
   * refuses an orphan insert, and no route removes a user or changes an id.
   */
  lemma HandleKeepsOwnersStored(jwt: Jwt, s: State, route: Route, req: Request)
    requires OwnersStored(s)
    ensures OwnersStored(Handle(jwt, s, route, req).next)
  {
    var body := req.body;
    match route
    case PostRegister =>
      if RegisterFieldsPresent(body) && !EmailTaken(s.users, body.email.value) {
        AddUserKeepsOwners(s, body.name.value, body.email.value, body.password.value);
      }
    case PostNotification =>
      if Gate(jwt, req.authorization).Ok? && NotificationFieldsPresent(body)
         && IdExists(s.users, Gate(jwt, req.authorization).value.id) {
        AddNotificationKeepsOwners(s, Gate(jwt, req.authorization).value.id, body.plate.value, body.occurrence.value);
      }
    case PutUser(id) =>
      var out := Handle(jwt, s, route, req);
      if out.next != s {
        OverwriteKeepsOwners(s, id, body.name.value, body.email.value, body.password.value);
      }
    case _ =>
  }

  /**
   * A successful register hands out an id larger than every id already in the
   * table, and the database stays valid.
   */
  lemma RegisterFreshId(s: State, body: Body)
    requires Valid(s)
    requires Register(s, body).response.Registered?
    ensures forall u :: u in s.users ==> u.id < Register(s, body).response.userId
    ensures Valid(Register(s, body).next)
  {
    AddUserValid(s, body.name.value, body.email.value, body.password.value);
  }

  /**
   * Login succeeds exactly when some stored user has the supplied email and
   * password, and the token then carries that user's id and name.
   */
  lemma LoginExact(jwt: Jwt, s: State, body: Body)
    requires Valid(s)
    ensures Login(jwt, s, body).response.LoggedIn? <==>
      && Present(body.email) && Present(body.password)
      && exists i :: 0 <= i < |s.users| && s.users[i].email == body.email.value
                                         && s.users[i].password == body.password.value
    ensures forall i :: 0 <= i < |s.users| && Login(jwt, s, body).response.LoggedIn?
                        && s.users[i].email == body.email.value ==>
      Login(jwt, s, body).response.token == GenerateToken(jwt, s.users[i])
  {
    forall i | body.email.Some? && 0 <= i < |s.users| && s.users[i].email == body.email.value
      ensures FindByEmail(s.users, body.email.value) == Some(s.users[i])
    {
      FindByEmailExact(s.users, i);
    }
  }

  /** GET /api/users/:id answers the caller's own row, as id, name and email only. */
  lemma ShowUserExact(s: State, who: Claims, i: int)
    requires Valid(s)
    requires 0 <= i < |s.users| && s.users[i].id == who.id
    ensures ShowUser(s, who, who.id).response == Profile(s.users[i].id, s.users[i].name, s.users[i].email)
  {
    FindByIdExact(s.users, s.nextUserId, i);
  }

  /**
   * A PUT that succeeds rewrites the caller's row, and only it: every other
   * user, every notification and both counters are as before.
   */
  lemma UpdateUserOnlyOwnRow(s: State, who: Claims, body: Body, i: int)
    requires Valid(s)
    requires 0 <= i < |s.users| && s.users[i].id == who.id
    requires body.name.Some? && body.email.Some? && body.password.Some?
    requires !EmailHeldByOther(s.users, body.email.value, who.id)
    ensures UpdateUser(s, who, who.id, body).response == Updated
    ensures UpdateUser(s, who, who.id, body).next.users[i] ==
      User(who.id, body.name.value, body.email.value, body.password.value)
    ensures forall j :: 0 <= j < |s.users| && j != i ==> UpdateUser(s, who, who.id, body).next.users[j] == s.users[j]
    ensures UpdateUser(s, who, who.id, body).next.notifications == s.notifications
    ensures Valid(UpdateUser(s, who, who.id, body).next)
  {
    var out := UpdateUser(s, who, who.id, body);
    assert IdExists(s.users, who.id);
    forall j | 0 <= j < |s.users| && j != i
      ensures out.next.users[j] == s.users[j]
    {
      if j < i {
        assert s.users[j].id < s.users[i].id;
      } else {
        assert s.users[i].id < s.users[j].id;
      }
    }
    OverwriteValid(s, who.id, body.name.value, body.email.value, body.password.value);
  }

  /**
   * The gate runs before any body validation: a protected route with no
   * usable token answers 403 whatever the body says, so a notification
   * without a token is never a 400.
   */
  lemma GateBeforeBody(jwt: Jwt, s: State, route: Route, req: Request, other: Body)
    requires Protected(route)
    requires Gate(jwt, req.authorization).Err?
    ensures Handle(jwt, s, route, req) == Handle(jwt, s, route, req.(body := other))
    ensures StatusCode(Handle(jwt, s, route, req).response) == 403
  {
  }

  /**
   * The owner of a new notification comes from the token: whatever `user_id`
   * the body carries, the outcome is the same.
   */
  lemma OwnerFromToken(jwt: Jwt, s: State, req: Request, forged: Option<int>)
    ensures Handle(jwt, s, PostNotification, req) ==
            Handle(jwt, s, PostNotification, req.(body := req.body.(userId := forged)))
    ensures forall n :: n in Handle(jwt, s, PostNotification, req).next.notifications
                        && n !in s.notifications ==>
      Gate(jwt, req.authorization).Ok? && n.userId == Gate(jwt, req.authorization).value.id
  {
  }

  /**
   * The sent and received listings of one caller split the table: every row
   * is in exactly one of them, as often as it is in the table.
   */
  lemma ListingsPartition(s: State, who: Claims)
    ensures multiset(ListSent(s, who).response.rows) + multiset(ListReceived(s, who).response.rows)
            == multiset(s.notifications)
    ensures forall n :: n in s.notifications ==>
      (n in ListSent(s, who).response.rows <==> n !in ListReceived(s, who).response.rows)
  {
    SentReceivedPartition(s.notifications, who.id);
  }
}

=== FILE: store.dfy ===
/**
 * The two SQLite tables of the backend as an immutable value: `users` and
 * `notifications` become sequences of rows in storage order, and the
 * AUTOINCREMENT counters become explicit next-id fields.
 */
module Store {
  import opened Wrappers

  /** A row of `users`: id, name, email (UNIQUE), password (stored as given). */
  datatype User = User(id: int, name: string, email: string, password: string)

  /** A row of `notifications`; `created_at` is a wall-clock default and is left out. */
  datatype Notification = Notification(id: int, userId: int, plate: string, occurrence: string, status: string)

  /** The schema default of `notifications.status`. */
  const Pending: string := "pending"

  /**
   * Both tables plus the next id AUTOINCREMENT hands out for each. SQLite
   * starts AUTOINCREMENT at 1 and never reuses an id.
   */
  datatype State = State(users: seq<User>, notifications: seq<Notification>, nextUserId: int, nextNotificationId: int)

  /** A freshly created database: both tables empty. */
  const Initial: State := State([], [], 1, 1)

  /** No two rows of `users` share an email (the UNIQUE constraint). */
  ghost predicate EmailsDistinct(users: seq<User>) {
    forall i, j :: 0 <= i < j < |users| ==> users[i].email != users[j].email
  }

  /** User ids are positive, strictly increasing in storage order and below the counter. */
  ghost predicate UserIdsBelow(users: seq<User>, next: int) {
    && (forall i, j :: 0 <= i < j < |users| ==> users[i].id < users[j].id)
    && (forall i :: 0 <= i < |users| ==> 0 < users[i].id < next)
  }

  /** Notification ids are positive, strictly increasing in storage order and below the counter. */
  ghost predicate NotificationIdsBelow(ns: seq<Notification>, next: int) {
    && (forall i, j :: 0 <= i < j < |ns| ==> ns[i].id < ns[j].id)
    && (forall i :: 0 <= i < |ns| ==> 0 < ns[i].id < next)
  }

  /**
   * The invariant every reachable database satisfies: the primary keys are
   * AUTOINCREMENT keys, emails are unique, and every notification still has
   * the default status (nothing in the backend changes it).
   */
  ghost predicate Valid(s: State) {
    && 0 < s.nextUserId
    && 0 < s.nextNotificationId
    && UserIdsBelow(s.users, s.nextUserId)
    && EmailsDistinct(s.users)
    && NotificationIdsBelow(s.notifications, s.nextNotificationId)
    && (forall i :: 0 <= i < |s.notifications| ==> s.notifications[i].status == Pending)
  }

  /**
   * Every notification's owner is a stored user: the FOREIGN KEY on
   * `notifications.user_id`, which server.js's driver enforces.
   */
  ghost predicate OwnersStored(s: State) {
    forall i :: 0 <= i < |s.notifications| ==> IdExists(s.users, s.notifications[i].userId)
  }

  lemma InitialValid()
    ensures Valid(Initial)
  {
  }

  /** Some row of `users` has this email. */
  predicate EmailTaken(users: seq<User>, email: string) {
    exists i :: 0 <= i < |users| && users[i].email == email
  }

  /** Some row of `users` has this id. */
  predicate IdExists(users: seq<User>, id: int) {
    exists i :: 0 <= i < |users| && users[i].id == id
  }

  /** Some row other than the one with id `id` has this email. */
  predicate EmailHeldByOther(users: seq<User>, email: string, id: int) {
    exists i :: 0 <= i < |users| && users[i].email == email && users[i].id != id
  }

  /** `SELECT * FROM users WHERE email = ?` with `.get`: the first matching row, if any. */
  function FindByEmail(users: seq<User>, email: string): (r: Option<User>)
    ensures r.Some? <==> EmailTaken(users, email)
    ensures r.Some? ==> r.value in users && r.value.email == email
  {
    if |users| == 0 then None
    else if users[0].email == email then Some(users[0])
    else
      var r := FindByEmail(users[1..], email);
      assert EmailTaken(users, email) ==> EmailTaken(users[1..], email) by {
        if EmailTaken(users, email) {
          var i :| 0 <= i < |users| && users[i].email == email;
          assert users[1..][i - 1] == users[i];
        }
      }
      r
  }

  /** `SELECT ... FROM users WHERE id = ?` with `.get`: the first matching row, if any. */
  function FindById(users: seq<User>, id: int): (r: Option<User>)
    ensures r.Some? <==> IdExists(users, id)
    ensures r.Some? ==> r.value in users && r.value.id == id
  {
    if |users| == 0 then None
    else if users[0].id == id then Some(users[0])
    else
      var r := FindById(users[1..], id);
      assert IdExists(users, id) ==> IdExists(users[1..], id) by {
        if IdExists(users, id) {
          var i :| 0 <= i < |users| && users[i].id == id;
          assert users[1..][i - 1] == users[i];
        }
      }
      r
  }

  /** With unique emails the lookup by email returns exactly the row holding it. */
  lemma {:induction false} FindByEmailExact(users: seq<User>, i: int)
    requires EmailsDistinct(users)
    requires 0 <= i < |users|
    ensures FindByEmail(users, users[i].email) == Some(users[i])
  {
    if i > 0 {
      assert users[0].email != users[i].email;
      assert users[1..][i - 1] == users[i];
      FindByEmailExact(users[1..], i - 1);
    }
  }

  /** With increasing ids the lookup by id returns exactly the row with it. */
  lemma {:induction false} FindByIdExact(users: seq<User>, next: int, i: int)
    requires UserIdsBelow(users, next)
    requires 0 <= i < |users|
    ensures FindById(users, users[i].id) == Some(users[i])
  {
    if i > 0 {
      assert users[0].id < users[i].id;
      assert users[1..][i - 1] == users[i];
      FindByIdExact(users[1..], next, i - 1);
    }
  }

  /**
   * `UPDATE users SET name = ?, email = ?, password = ? WHERE id = ?`:
   * every row with that id gets the three new values, every other row is kept.
   */
  function Overwrite(users: seq<User>, id: int, name: string, email: string, password: string): (r: seq<User>)
    ensures |r| == |users|
    ensures forall i :: 0 <= i < |users| ==>
      r[i] == if users[i].id == id then User(id, name, email, password) else users[i]
  {
    if |users| == 0 then []
    else
      var head := if users[0].id == id then User(id, name, email, password) else users[0];
      [head] + Overwrite(users[1..], id, name, email, password)
  }

  /**
   * `INSERT INTO users (name, email, password)`: the row gets the next
   * AUTOINCREMENT id, which the counter then moves past.
   */
  function AddUser(s: State, name: string, email: string, password: string): (t: State)
    ensures |t.users| == |s.users| + 1
    ensures forall i :: 0 <= i < |s.users| ==> t.users[i] == s.users[i]
    ensures t.users[|s.users|] == User(s.nextUserId, name, email, password)
    ensures t.notifications == s.notifications
    ensures t.nextUserId == s.nextUserId + 1 && t.nextNotificationId == s.nextNotificationId
  {
    s.(users := s.users + [User(s.nextUserId, name, email, password)], nextUserId := s.nextUserId + 1)
  }

  /**
   * `INSERT INTO notifications (user_id, plate, occurrence)`: the row gets the
   * next id and the default status.
   */
  function AddNotification(s: State, uid: int, plate: string, occurrence: string): (t: State)
    ensures |t.notifications| == |s.notifications| + 1
    ensures forall i :: 0 <= i < |s.notifications| ==> t.notifications[i] == s.notifications[i]
    ensures t.notifications[|s.notifications|] == Notification(s.nextNotificationId, uid, plate, occurrence, Pending)
    ensures t.users == s.users
    ensures t.nextNotificationId == s.nextNotificationId + 1 && t.nextUserId == s.nextUserId
  {
    s.(notifications := s.notifications + [Notification(s.nextNotificationId, uid, plate, occurrence, Pending)],
       nextNotificationId := s.nextNotificationId + 1)
  }

  /**
   * Inserting a user whose email is not yet taken keeps the database valid,
   * and the appended row's id is larger than the id of every earlier row.
   */
  lemma AddUserValid(s: State, name: string, email: string, password: string)
    requires Valid(s)
    requires !EmailTaken(s.users, email)
    ensures Valid(AddUser(s, name, email, password))
    ensures forall i :: 0 <= i < |s.users| ==>
      s.users[i].id < AddUser(s, name, email, password).users[|s.users|].id
  {
    var t := AddUser(s, name, email, password);
    forall i, j | 0 <= i < j < |t.users|
      ensures t.users[i].email != t.users[j].email
    {
      if j == |s.users| {
        assert t.users[i] == s.users[i];
      }
    }
  }

  /** Inserting a notification keeps the database valid. */
  lemma AddNotificationValid(s: State, uid: int, plate: string, occurrence: string)
    requires Valid(s)
    ensures Valid(AddNotification(s, uid, plate, occurrence))
  {
  }

  /**
   * Overwriting one row keeps the database valid as long as the new email is
   * not held by a different row.
   */
  lemma OverwriteValid(s: State, id: int, name: string, email: string, password: string)
    requires Valid(s)
    requires !EmailHeldByOther(s.users, email, id)
    ensures Valid(s.(users := Overwrite(s.users, id, name, email, password)))
  {
    var us := Overwrite(s.users, id, name, email, password);
    forall i, j | 0 <= i < j < |us|
      ensures us[i].email != us[j].email
    {
      if s.users[i].id == id {
        assert s.users[j].id != id;
      } else if s.users[j].id == id {
        assert s.users[i].id != id;
      }
    }
  }

  /** Inserting a user keeps every notification's owner stored. */
  lemma AddUserKeepsOwners(s: State, name: string, email: string, password: string)
    requires OwnersStored(s)
    ensures OwnersStored(AddUser(s, name, email, password))
  {
    var t := AddUser(s, name, email, password);
    forall i | 0 <= i < |t.notifications|
      ensures IdExists(t.users, t.notifications[i].userId)
    {
      var j :| 0 <= j < |s.users| && s.users[j].id == s.notifications[i].userId;
      assert t.users[j] == s.users[j];
    }
  }

  /** Inserting a notification owned by a stored user keeps every owner stored. */
  lemma AddNotificationKeepsOwners(s: State, uid: int, plate: string, occurrence: string)
    requires OwnersStored(s)
    requires IdExists(s.users, uid)
    ensures OwnersStored(AddNotification(s, uid, plate, occurrence))
  {
  }

  /** Overwriting rows keeps their ids, so every owner stays stored. */
  lemma OverwriteKeepsOwners(s: State, id: int, name: string, email: string, password: string)
    requires OwnersStored(s)
    ensures OwnersStored(s.(users := Overwrite(s.users, id, name, email, password)))
  {
    var us := Overwrite(s.users, id, name, email, password);
    forall i | 0 <= i < |s.notifications|
      ensures IdExists(us, s.notifications[i].userId)
    {
      var j :| 0 <= j < |s.users| && s.users[j].id == s.notifications[i].userId;
      assert us[j].id == s.users[j].id;
    }
  }

  /** `SELECT * FROM notifications WHERE user_id = ?`, in storage order. */
  function Sent(ns: seq<Notification>, uid: int): (r: seq<Notification>)
    ensures forall n :: n in r <==> n in ns && n.userId == uid
    ensures |r| <= |ns|
  {
    if |ns| == 0 then []
    else if ns[0].userId == uid then [ns[0]] + Sent(ns[1..], uid)
    else Sent(ns[1..], uid)
  }

  /** `SELECT * FROM notifications WHERE user_id != ?`, in storage order. */
  function Received(ns: seq<Notification>, uid: int): (r: seq<Notification>)
    ensures forall n :: n in r <==> n in ns && n.userId != uid
    ensures |r| <= |ns|
  {
    if |ns| == 0 then []
    else if ns[0].userId != uid then [ns[0]] + Received(ns[1..], uid)
    else Received(ns[1..], uid)
  }

  /**
   * The sent and received listings of one user split the table: together they
   * hold every row exactly as often as the table does, and no row is in both.
   */
  lemma {:induction false} SentReceivedPartition(ns: seq<Notification>, uid: int)
    ensures multiset(Sent(ns, uid)) + multiset(Received(ns, uid)) == multiset(ns)
    ensures |Sent(ns, uid)| + |Received(ns, uid)| == |ns|
    ensures forall n :: n in Sent(ns, uid) ==> n !in Received(ns, uid)
  {
    if |ns| > 0 {
      SentReceivedPartition(ns[1..], uid);
      assert ns == [ns[0]] + ns[1..];
    }
  }
}

=== FILE: wrappers.dfy ===
/** Failure-carrying datatypes shared by the whole model. */
module Wrappers {

  /** A value that may be absent: a missing JSON field, a row a query did not find. */
  datatype Option<+T> = None | Some(value: T)

  /** A computation that either yields a value or stops with a reason. */
  datatype Result<+T, +E> = Ok(value: T) | Err(error: E)
}
